=== FILE: README.md ===
# Cleaning of the credit-application table (`pregunta_01`)

This project models, in Dafny, the routine `pregunta_01` of
`homework/pregunta_01.py`. The routine reads a table of credit
applications (`solicitudes_de_credito`), cleans it and writes it back.
Everything between the read and the write is modelled as pure functions
over a table. A table is a `seq` of rows, and every cell of a row is an
`Option`: `None` stands for a missing value (NaN / NaT).

The routine's steps, in source order:

1. `dropna()`: drop every row with a missing field.
2. `drop_duplicates()`: keep the first occurrence of each distinct row.
3. Parse `fecha_de_beneficio`. The day-first format `%d/%m/%Y` is tried
   first, then the year-first format `%Y/%m/%d` (`combine_first`). A text
   valid in neither format becomes missing.
4. Clean `sexo`, `tipo_de_emprendimiento`, `idea_negocio` and
   `línea_credito` with `limpiar_texto_columna`. It lowercases, turns `-`
   and `_` into spaces, then strips.
5. Normalise `barrio`: lowercase, `-` and `_` become spaces, no strip.
6. Clean `monto_del_credito`: strip, remove every `$`, then every `,`,
   then every `.00`, then `pd.to_numeric(..., errors="coerce")`.
7. `drop_duplicates()` again, then `dropna()` again.

Modules:

- `Wrappers`: the `Option` cell type.
- `Rows`: boolean-mask row selection, and `dropna` / `drop_duplicates`
  built on it. Both are generic over the row type. `drop_duplicates`
  keeps row `i` exactly when no equal row comes before it, which is
  `~duplicated(keep="first")`.
- `Text`: lowercasing, separators, Python's `str.strip()`, and
  `limpiar_texto_columna`.
- `Digits`: decimal digit strings, their value and their shortest writing.
- `Amount`: `str.replace(pat, "")` and the cleaning of the amount.
- `Dates`: the Gregorian calendar and the two date formats.
- `Solicitudes`: the raw row and the cleaned row (`RawSolicitud`,
  `Solicitud`), the per-row transformation `CleanRow`, and the whole
  routine `Pregunta01`.

Proving the natural contracts showed one thing about the date parse.
In the model, no text is valid in both date formats: the first field has
one or two digits in one format and four in the other. So, in the model,
the day-first preference of `combine_first` never overrides a year-first
reading (`Dates.FormatsExclusive`, `Dates.ParseFechaEitherFormat`). The
library's `today` and `now` are the exception; see "## Left out".

The amount `$1,234.00` becomes `1234`, because `.str.replace(".00", "")`
(line 73) removes `.00` as a substring.

## Model

| member | source | states |
|---|---|---|
| Text.LowerAndSpace | homework/pregunta_01.py:55-60 | Barrio normalisation works character by character. The output has the input's length. Each `-` or `_` becomes a space, each capital becomes its lowercase letter, and every other character is kept. A position holds whitespace exactly when the input had whitespace or a separator there. The output has no capitals and no separators. |
| Text.LowerAndSpaceKeepsSurroundingSpace | homework/pregunta_01.py:55-60 | Barrio normalisation does not trim: the leading and trailing whitespace of the input is still there. |
| Text.Strip | homework/pregunta_01.py:45 | `str.strip()` returns the slice of the input left after removing whitespace at both ends. Only whitespace is removed, and none is left at either end. The result is empty exactly when the input is all whitespace. |
| Text.CleanText | homework/pregunta_01.py:40-46 | The output of `limpiar_texto_columna` has no ASCII capitals, no `-` or `_`, and no leading or trailing whitespace. |
| Text.StripOfStripped | homework/pregunta_01.py:45 | A text with no whitespace at either end is its own strip. |
| Text.CleanTextFixedPoints | homework/pregunta_01.py:40-46 | `limpiar_texto_columna` leaves a text unchanged exactly when the text is already clean. |
| Text.CleanTextIdempotent | homework/pregunta_01.py:40-46 | Cleaning an already cleaned text returns it unchanged. |
| Amount.RemoveAll | homework/pregunta_01.py:71-73 | `str.replace(pat, "")` never lengthens the text and only keeps characters of the input. With a one-character pattern, that character no longer occurs. Its scan is pinned down by `Amount.RemoveAbsent` and `Amount.RemoveFirstOccurrence`. |
| Amount.RemoveAbsent | homework/pregunta_01.py:71-73 | Removing a pattern that occurs at no position changes nothing. |
| Amount.RemoveFirstOccurrence | homework/pregunta_01.py:71-73 | When `pat` first occurs right after `a`, removing `pat` from `a + pat + b` keeps `a` as it is, drops that occurrence and goes on removing in `b`. Occurrences are removed left to right without overlap. |
| Amount.RemoveAbsentChar | homework/pregunta_01.py:71-72 | Removing a character that does not occur changes nothing. |
| Amount.RemoveCharConcat | homework/pregunta_01.py:71-72 | Removing one character from a concatenation is the concatenation of the removals. |
| Amount.RemoveCharSelects | homework/pregunta_01.py:71-72 | Removing `$` or `,` keeps every other character, in its original order. This is the selection of the positions that do not hold that character. |
| Amount.RemoveCents | homework/pregunta_01.py:73 | Removing `.00` from a digit string followed by `.00` leaves exactly the digit string. |
| Amount.RemoveNoDot | homework/pregunta_01.py:73 | Removing `.00` leaves a digit string unchanged. |
| Amount.ParseAmount | homework/pregunta_01.py:67-76 | An amount reads as a number exactly when its cleaned text is a non-empty ASCII digit string, and the number is that string's value. Its partners are `Amount.ParseAmountCurrency` and `Amount.ParseAmountPlain`, which state what the cleaning yields on the formats that the replacements at lines 71-73 undo and on plain digit strings. |
| Amount.CleanAmount | homework/pregunta_01.py:67-74 | The cleaned amount text contains no `$` and no `,`. |
| Amount.UngroupedDigits | homework/pregunta_01.py:72 | Deleting the commas of a number written in groups of three leaves a digit string whose value is that number. |
| Amount.ParseAmountCurrency | homework/pregunta_01.py:67-76 | Every amount written in the currency format that the replacements at lines 71-73 undo (`$1,234,567.00`) is read back as that whole number. |
| Amount.ParseAmountPlain | homework/pregunta_01.py:67-76 | Every non-empty ASCII digit string, leading zeros included, passes the cleaning unchanged and is read as its value. |
| Amount.ParseAmountShown | homework/pregunta_01.py:67-76 | The shortest decimal writing of a number is read back as that number. |
| Amount.ParseAmountLeadingZeroExample | homework/pregunta_01.py:67-76 | `0012` is read as 12. |
| Amount.CurrencyTextExample | homework/pregunta_01.py:67-74 | 1234 written in the currency format is `$1,234.00`, and removing its commas gives `1234`. |
| Amount.CleanAmountExample | homework/pregunta_01.py:67-76 | `$1,234.00` cleans to `1234` and parses to 1234. |
| Digits.ParseNat | homework/pregunta_01.py:76 | The whole-number case of `to_numeric` succeeds exactly on a non-empty string of ASCII digits. |
| Digits.ParseShowNat | homework/pregunta_01.py:76 | Reading back the decimal writing of a number gives that number. |
| Dates.Split | homework/pregunta_01.py:31-36 | The fields a date format matches between its `/` separators are the pieces of the text at `/`, because no field pattern matches `/`. There is at least one piece. Joining the pieces with `/` gives the text back, and no piece contains `/`. |
| Dates.ParseDayFirst | homework/pregunta_01.py:31-33 | A successful `%d/%m/%Y` parse always yields a date that exists in the Gregorian calendar. Its full behaviour is stated by `Dates.ParseDayFirstShape`. |
| Dates.ParseYearFirst | homework/pregunta_01.py:34-36 | A successful `%Y/%m/%d` parse always yields a date that exists in the Gregorian calendar. Its full behaviour is stated by `Dates.ParseYearFirstShape`. |
| Dates.ParseDayFirstShape | homework/pregunta_01.py:31-33 | In the model, `%d/%m/%Y` reads a text as a date exactly when the text is a day of one or two digits, `/`, a month of one or two digits, `/`, and a year of four digits, and these give that date and it exists. The library's extra forms are under "## Left out". |
| Dates.ParseYearFirstShape | homework/pregunta_01.py:34-36 | In the model, `%Y/%m/%d` reads a text as a date exactly when the text is a year of four digits, `/`, a month of one or two digits, `/`, and a day of one or two digits, and these give that date and it exists. The library's extra forms are under "## Left out". |
| Dates.DayFirstOfFields | homework/pregunta_01.py:31-33 | A day field, a month field and a year field joined by `/` read, day first, as the valid date they give. |
| Dates.YearFirstOfFields | homework/pregunta_01.py:34-36 | A year field, a month field and a day field joined by `/` read, year first, as the valid date they give. |
| Dates.ParseFecha | homework/pregunta_01.py:31-37 | The combined parse only yields dates that exist in the calendar. |
| Dates.FormatsExclusive | homework/pregunta_01.py:31-37 | In the model, no text is accepted by both formats. |
| Dates.ParseFechaEitherFormat | homework/pregunta_01.py:31-37 | The combined parse reads a text as a date exactly when one of the two formats reads it as that date. |
| Dates.ParseDayFirstText | homework/pregunta_01.py:31-33 | A `dd/mm/yyyy` text reads as its date exactly when that date exists in the calendar, and is missing otherwise. |
| Dates.ParseYearFirstText | homework/pregunta_01.py:34-36 | A `yyyy/mm/dd` text reads as its date exactly when that date exists in the calendar, and is missing otherwise. |
| Dates.ParseFechaExample | homework/pregunta_01.py:31-33 | `05/03/2021` reads as 5 March 2021. |
| Dates.ParseFechaYearFirstExample | homework/pregunta_01.py:34-37 | `2021/03/05` also reads as 5 March 2021, through the year-first format. |
| Dates.ParseFechaSingleDigitExample | homework/pregunta_01.py:31-33 | `5/3/2021` reads as 5 March 2021: one-digit days and months are accepted. |
| Dates.ParseFechaDashExample | homework/pregunta_01.py:31-37 | `05-03-2021` fits neither format and becomes missing. |
| Dates.ParseFechaSpaceExample | homework/pregunta_01.py:31-37 | ` 5/03/2021`, with a space-padded day, becomes missing in the model. |
| Dates.ParseFechaYearFirstSpaceExample | homework/pregunta_01.py:34-37 | `2021/03/ 5`, with a space-padded final day, becomes missing in the model. |
| Dates.ParseFechaTodayExample | homework/pregunta_01.py:31-37 | The word `today` becomes missing in the model, which has no clock. |
| Dates.ParseFechaInvalidExample | homework/pregunta_01.py:31-37 | `31/02/2021` is valid in neither format and becomes missing. |
| Dates.ParseFechaLeapDayExample | homework/pregunta_01.py:31-33 | `29/02/2020` exists, because 2020 is a leap year. |
| Dates.ParseFechaCenturyExample | homework/pregunta_01.py:31-33 | `29/02/1900` is missing, because 1900 is not a leap year. |
| Rows.DropNA | homework/pregunta_01.py:26 | Every row `dropna` returns is an input row with no missing field, and every such input row is returned (also at line 80). |
| Rows.DropNAKeepsExactly | homework/pregunta_01.py:26 | `dropna` returns input rows unchanged, at an increasing list of positions. A position is on that list exactly when its row has no missing field. |
| Rows.DropNAPositionOf | homework/pregunta_01.py:26 | Every complete input row appears in the result of `dropna`. |
| Rows.DropNASourceOf | homework/pregunta_01.py:26 | Every row of the result of `dropna` is a complete input row, found at some input position. |
| Rows.DropDuplicates | homework/pregunta_01.py:28 | No two rows of the result are equal. Every result row is an input row, and every input row appears in the result (also at line 79). |
| Rows.DropDuplicatesKeepsFirst | homework/pregunta_01.py:28 | `drop_duplicates` returns input rows unchanged, at an increasing list of positions. A position is on that list exactly when no equal row comes before it. |
| Rows.DropDuplicatesPositionOf | homework/pregunta_01.py:28 | Every input row appears in the result of `drop_duplicates`. |
| Rows.DropDuplicatesSourceOf | homework/pregunta_01.py:28 | Every row of the result of `drop_duplicates` is an input row, found at a position where no equal row comes before it. |
| Rows.DropDuplicatesOfDistinct | homework/pregunta_01.py:79 | A table without duplicates is returned unchanged by `drop_duplicates`. |
| Rows.DropDuplicatesIdempotent | homework/pregunta_01.py:79 | Applying `drop_duplicates` twice gives the same table as applying it once. |
| Rows.DropNAPreservesDistinct | homework/pregunta_01.py:79-80 | `dropna` of a table without duplicates has no duplicates. |
| Solicitudes.CleanRow | homework/pregunta_01.py:31-76 | The column transformations keep missing text cells missing and present text cells present. Cleaned text columns are clean. `barrio` keeps its length and loses its capitals and separators. `estrato` and `comuna_ciudadano` are unchanged. A parsed date exists in the calendar, and a present date or amount comes from a present input value. A complete cleaned row is well formed. |
| Solicitudes.CleanRows | homework/pregunta_01.py:31-76 | The column transformations act row by row: the cleaned table has the input's length, and row `i` is the cleaning of input row `i`. Every complete cleaned row is well formed. |
| Solicitudes.Pregunta01 | homework/pregunta_01.py:26-80 | The final table has at most as many rows as the input. Every row has all fields, clean text, a normalised `barrio` and a valid date. No two rows are equal. |
| Solicitudes.Pregunta01Sound | homework/pregunta_01.py:26-80 | Every row written is the cleaning of some complete input row. |
| Solicitudes.Pregunta01Keeps | homework/pregunta_01.py:26-80 | Every complete input row whose date and amount parse is written. |
| Solicitudes.Pregunta01Rows | homework/pregunta_01.py:26-80 | A row is written exactly when it is complete and is the cleaning of some complete input row. |

## Left out

- Reading the CSV (`pd.read_csv` with `sep=";"` and `index_col=0`, line 23), creating the output directory and writing the file (lines 83-84). These are file I/O. The table enters as a `seq` of rows. The index column is not part of a row, because `drop_duplicates` ignores it and `to_csv(index=False)` does not write it.
- `astype(int)` on `estrato` and `comuna_ciudadano` (lines 63-64). The model takes both columns as already-integer cells and passes them through unchanged. The library's type inference, the truncation of float cells and the error this call can raise are not modelled.
- Amount.ParseAmount: only the whole-number case of `pd.to_numeric` (line 76) is modelled. A cleaned text that is not a non-empty ASCII digit string is treated as missing. The library would instead read signed, decimal or exponent forms (`-5`, `12.5`, `1e3`) and texts with surrounding whitespace as numbers.
- Amount.ParseAmount: the number is an unbounded `nat`. The library stores the column as `int64` (or `uint64`), and as `float64` once any cell is missing, which happens whenever one amount does not parse. As `float64`, amounts above 2^53 are rounded. Two rows that differ only in such an amount can then become equal and be merged by the `drop_duplicates` of line 79, which the model does not do. Amounts too wide for 64 bits are not modelled either.
- Text.LowerChar: `str.lower()` (lines 43 and 57) is modelled for ASCII letters only. Other letters, accented ones included, are kept as they are.
- Dates.ParseDayFirst: the library's `%d` also accepts a space-padded day (` 5/03/2021`). The model reads such a text as missing (`Dates.ParseFechaSpaceExample`). Non-ASCII decimal digits, which the library's `\d` matches, are not modelled either.
- Dates.ParseDayFirst: before trying the format, the library reads the literal texts `today` and `now` as the date and time of the run. Such a row then survives the final `dropna` (line 80). The model has no clock and reads these texts as missing (`Dates.ParseFechaTodayExample`).
- Dates.ParseYearFirst: the library's `%d` also accepts a space-padded final day (`2021/03/ 5`). The model reads such a text as missing (`Dates.ParseFechaYearFirstSpaceExample`). Whitespace around the whole date is rejected by the library as well, so it needs no exception.
- Dates.ParseYearFirst: non-ASCII decimal digits, which the library's `\d` matches, are not modelled.
- Dates.ParseYearFirst: the library reads `today` and `now` as the date of the run, as it does for the day-first format. The model reads them as missing.
- Dates.ParseDayFirstShape: its "exactly when" holds for the model. The library also accepts the space-padded day, non-ASCII digits, `today` and `now`, as listed under `Dates.ParseDayFirst`.
- Dates.ParseYearFirstShape: its "exactly when" holds for the model. The library also accepts the space-padded final day, non-ASCII digits, `today` and `now`, as listed under `Dates.ParseYearFirst`.
- Dates.FormatsExclusive: the library's two formats both read `today` and `now`, as the date of the run. For such a text both `to_datetime` calls (lines 31-36) give a value, and `combine_first` (line 37) keeps the day-first one. The model reads both as missing, so its formats exclude each other.
- Dates.IsValid: any year from 1 to 9999 is accepted. The library also turns into missing any date outside its timestamp range (about 1677-09-22 to 2262-04-11 at nanosecond resolution). That bound is not modelled.
- How dates are rendered in the output file (line 84). A date is a (year, month, day) triple.
- Non-string cells in the text columns. After the first `dropna` every text cell is a string, so the `.str` accessors' handling of other types is not modelled.

=== FILE: Amount.dfy ===
/** Cleaning of `monto_del_credito`: strip, drop every `$`, every `,` and
    every `.00`, then read the rest as a whole number. */
module Amount {
  import opened Wrappers
  import opened Digits
  import Text
  import Rows

  /** `s.replace(pat, "")`: the occurrences of `pat` are found from left
      to right, without overlapping, and removed. */
  function RemoveAll(s: string, pat: string): (r: string)
    requires |pat| > 0
    ensures |r| <= |s|
    ensures forall i :: 0 <= i < |r| ==> r[i] in s
    ensures |pat| == 1 ==> pat[0] !in r
    decreases |s|
  {
    if |s| < |pat| then s
    else if s[..|pat|] == pat then RemoveAll(s[|pat|..], pat)
    else
      var rest := RemoveAll(s[1..], pat);
      assert forall i :: 0 <= i < |rest| ==> rest[i] in s[1..];
      [s[0]] + rest
  }

  /** `pat` occurs in `s` starting at position `i`. */
  predicate OccursAt(s: string, pat: string, i: nat)
  {
    i + |pat| <= |s| && s[i..i + |pat|] == pat
  }

  /** An occurrence in the tail is an occurrence one place further on. */
  lemma OccursAtTail(s: string, pat: string, i: nat)
    requires |s| > 0
    ensures OccursAt(s[1..], pat, i) <==> OccursAt(s, pat, i + 1)
  {
    if i + |pat| <= |s[1..]| {
      assert s[1..][i..i + |pat|] == s[i + 1..i + 1 + |pat|];
    }
  }

  /** Where no occurrence starts, the first character is kept. */
  lemma RemoveKeep(s: string, pat: string)
    requires |pat| > 0 && |s| >= |pat| && !OccursAt(s, pat, 0)
    ensures RemoveAll(s, pat) == [s[0]] + RemoveAll(s[1..], pat)
  {
    assert s[0..|pat|] == s[..|pat|];
  }

  /** An occurrence at the start is dropped as a whole. */
  lemma RemoveSkip(s: string, pat: string)
    requires |pat| > 0 && OccursAt(s, pat, 0)
    ensures RemoveAll(s, pat) == RemoveAll(s[|pat|..], pat)
  {
    assert s[0..|pat|] == s[..|pat|];
  }

  /** Dropping the first character of `a` keeps `pat` absent from the
      remaining positions before the occurrence. */
  lemma AbsentAfterFirst(a: string, pat: string, b: string)
    requires |a| > 0
    requires forall i :: 0 <= i < |a| ==> !OccursAt(a + pat + b, pat, i)
    ensures forall i :: 0 <= i < |a| - 1 ==> !OccursAt(a[1..] + pat + b, pat, i)
  {
    var s := a + pat + b;
    assert s[1..] == a[1..] + pat + b;
    forall i | 0 <= i < |a| - 1
      ensures !OccursAt(a[1..] + pat + b, pat, i)
    {
      OccursAtTail(s, pat, i);
    }
  }

  /** Removing a pattern that does not occur changes nothing. */
  lemma {:induction false} RemoveAbsent(s: string, pat: string)
    requires |pat| > 0
    requires forall i :: 0 <= i <= |s| ==> !OccursAt(s, pat, i)
    ensures RemoveAll(s, pat) == s
    decreases |s|
  {
    if |s| >= |pat| {
      assert s == [s[0]] + s[1..];
      assert !OccursAt(s, pat, 0);
      RemoveKeep(s, pat);
      forall i | 0 <= i <= |s[1..]|
        ensures !OccursAt(s[1..], pat, i)
      {
        assert !OccursAt(s, pat, i + 1);
        OccursAtTail(s, pat, i);
      }
      RemoveAbsent(s[1..], pat);
    }
  }

  /** The leftmost occurrence of the pattern is removed and the scan goes
      on after it: what comes before is kept as it is. */
  lemma {:induction false} RemoveFirstOccurrence(a: string, pat: string, b: string)
    requires |pat| > 0
    requires forall i :: 0 <= i < |a| ==> !OccursAt(a + pat + b, pat, i)
    ensures RemoveAll(a + pat + b, pat) == a + RemoveAll(b, pat)
    decreases |a|
  {
    var s := a + pat + b;
    if |a| == 0 {
      assert s == pat + b;
      RemoveSkip(s, pat);
      assert s[|pat|..] == b;
    } else {
      AbsentAfterFirst(a, pat, b);
      RemoveFirstOccurrence(a[1..], pat, b);
      assert !OccursAt(s, pat, 0);
      PrependKept(a, pat, b, RemoveAll(b, pat));
    }
  }

  /** One step of the scan before the occurrence: the first character of
      `a` is kept in front of what the rest of the scan yields. */
  lemma PrependKept(a: string, pat: string, b: string, t: string)
    requires |pat| > 0 && |a| > 0
    requires !OccursAt(a + pat + b, pat, 0)
    requires RemoveAll(a[1..] + pat + b, pat) == a[1..] + t
    ensures RemoveAll(a + pat + b, pat) == a + t
  {
    var s := a + pat + b;
    assert s[1..] == a[1..] + pat + b;
    assert s[0] == a[0];
    RemoveKeep(s, pat);
    assert [a[0]] + (a[1..] + t) == a + t;
  }

  /** Removal of a character that does not occur changes nothing. */
  lemma {:induction false} RemoveAbsentChar(s: string, c: char)
    requires c !in s
    ensures RemoveAll(s, [c]) == s
    decreases |s|
  {
    if |s| > 0 {
      RemoveAbsentChar(s[1..], c);
      assert s == [s[0]] + s[1..];
    }
  }

  /** Removing one character works piece by piece. */
  lemma {:induction false} RemoveCharConcat(a: string, b: string, c: char)
    ensures RemoveAll(a + b, [c]) == RemoveAll(a, [c]) + RemoveAll(b, [c])
    decreases |a|
  {
    if |a| > 0 {
      assert (a + b)[1..] == a[1..] + b;
      assert (a + b)[..1] == a[..1];
      RemoveCharConcat(a[1..], b, c);
    } else {
      assert a + b == b;
    }
  }

  /** Removing one character keeps every other character, in order: it
      is the selection of the positions that do not hold `c`. */
  lemma {:induction false} RemoveCharSelects(s: string, c: char)
    ensures RemoveAll(s, [c]) == Rows.Select(s, seq(|s|, i requires 0 <= i < |s| => s[i] != c))
    decreases |s|
  {
    var mask := seq(|s|, i requires 0 <= i < |s| => s[i] != c);
    if |s| > 0 {
      var init := s[..|s| - 1];
      var last := s[|s| - 1];
      assert s == init + [last];
      RemoveCharConcat(init, [last], c);
      RemoveCharSelects(init, c);
      assert mask[..|s| - 1] == seq(|init|, i requires 0 <= i < |init| => init[i] != c);
      assert RemoveAll([last], [c]) == (if last == c then [] else [last]);
    }
  }

  /** A digit string followed by `.00` loses exactly the `.00`. */
  lemma {:induction false} RemoveCents(d: string)
    requires AllDigits(d)
    ensures RemoveAll(d + ".00", ".00") == d
    decreases |d|
  {
    var s := d + ".00";
    if |d| == 0 {
      assert s == ".00";
      assert s[3..] == "";
    } else {
      assert d == [d[0]] + d[1..];
      assert s[1..] == d[1..] + ".00";
      assert s[..3][0] == d[0];
      RemoveCents(d[1..]);
      assert RemoveAll(s, ".00") == [s[0]] + RemoveAll(s[1..], ".00");
    }
  }

  /** The cleaned text of an amount (`.str.strip()` and the three
      `.str.replace` calls); it holds no `$` and no `,`. */
  function CleanAmount(s: string): (r: string)
    ensures '$' !in r && ',' !in r
    ensures |r| <= |s|
  {
    var noDollar := RemoveAll(Text.Strip(s), "$");
    var noComma := RemoveAll(noDollar, ",");
    RemoveAll(noComma, ".00")
  }

  /** `pd.to_numeric(..., errors="coerce")` of the cleaned text, for the
      whole-number case: a digit string reads as its number, anything
      else is missing. */
  function ParseAmount(s: string): (r: Option<nat>)
    ensures r.Some? <==> |CleanAmount(s)| > 0 && AllDigits(CleanAmount(s))
    ensures r.Some? ==> r.value == Value(CleanAmount(s))
  {
    ParseNat(CleanAmount(s))
  }

  /** `n` written with a `,` between groups of three digits, the grouping
      that the removal of `,` undoes. */
  function Grouped(n: nat): (g: string)
    ensures forall i :: 0 <= i < |g| ==> IsDigit(g[i]) || g[i] == ','
    ensures |g| > 0 && IsDigit(g[0]) && IsDigit(g[|g| - 1])
  {
    if n < 1000 then ShowNat(n) else Grouped(n / 1000) + "," + Pad3(n % 1000)
  }

  /** An amount in the currency format that the removals of `$`, `,` and
      `.00` undo, `$1,234.00`. */
  function CurrencyText(n: nat): string
  {
    "$" + Grouped(n) + ".00"
  }

  /** Deleting the commas of a grouped number leaves its digits. */
  lemma {:induction false} UngroupedDigits(n: nat)
    ensures var u := RemoveAll(Grouped(n), ",");
      |u| > 0 && AllDigits(u) && Value(u) == n
    ensures n >= 1000 ==> RemoveAll(Grouped(n), ",") == RemoveAll(Grouped(n / 1000), ",") + Pad3(n % 1000)
  {
    if n < 1000 {
      RemoveAbsentChar(ShowNat(n), ',');
      ParseShowNat(n);
    } else {
      var hi := Grouped(n / 1000);
      var lo := Pad3(n % 1000);
      var u := RemoveAll(hi, ",");
      assert Grouped(n) == hi + ("," + lo);
      assert RemoveAll(Grouped(n), ",") == u + lo by {
        RemoveCharConcat(hi, "," + lo, ',');
        RemoveCharConcat(",", lo, ',');
        assert RemoveAll(",", ",") == "";
        RemoveAbsentChar(lo, ',');
      }
      var q, m := n / 1000, n % 1000;
      UngroupedDigits(q);
      Pad3Value(m);
      assert Pow10(|lo|) == 1000;
      ValueConcat(u, lo);
      assert Value(u + lo) == q * 1000 + m;
    }
  }

  /** Every amount written in the currency format is read back as that
      whole number. */
  lemma ParseAmountCurrency(n: nat)
    ensures CleanAmount(CurrencyText(n)) == RemoveAll(Grouped(n), ",")
    ensures ParseAmount(CurrencyText(n)) == Some(n)
  {
    var u := RemoveAll(Grouped(n), ",");
    CurrencyTextStripped(n);
    CurrencyTextNoDollar(n);
    CentsNoComma(Grouped(n));
    UngroupedDigits(n);
    RemoveCents(u);
  }

  /** The currency text has no whitespace to strip. */
  lemma CurrencyTextStripped(n: nat)
    ensures Text.Strip(CurrencyText(n)) == CurrencyText(n)
  {
    var s := CurrencyText(n);
    assert s[0] == '$' && s[|s| - 1] == '0';
    Text.StripOfStripped(s);
  }

  /** Removing `$` from the currency text leaves the grouped digits and
      the cents. */
  lemma CurrencyTextNoDollar(n: nat)
    ensures RemoveAll(CurrencyText(n), "$") == Grouped(n) + ".00"
  {
    var g := Grouped(n);
    assert CurrencyText(n) == "$" + (g + ".00");
    RemoveCharConcat("$", g + ".00", '$');
    assert RemoveAll("$", "$") == "";
    assert '$' !in g + ".00";
    RemoveAbsentChar(g + ".00", '$');
  }

  /** Removing `,` leaves the cents alone. */
  lemma CentsNoComma(g: string)
    ensures RemoveAll(g + ".00", ",") == RemoveAll(g, ",") + ".00"
  {
    RemoveCharConcat(g, ".00", ',');
    RemoveAbsentChar(".00", ',');
  }

  /** A plain digit string, leading zeros included, passes the cleaning
      unchanged and reads as its value. */
  lemma ParseAmountPlain(d: string)
    requires |d| > 0 && AllDigits(d)
    ensures CleanAmount(d) == d
    ensures ParseAmount(d) == Some(Value(d))
  {
    assert IsDigit(d[0]) && IsDigit(d[|d| - 1]);
    assert !Text.IsSpace(d[0]) && !Text.IsSpace(d[|d| - 1]);
    Text.StripOfStripped(d);
    RemoveAbsentChar(d, '$');
    RemoveAbsentChar(d, ',');
    RemoveNoDot(d);
  }

  /** The shortest decimal writing of `n` reads back as `n`. */
  lemma ParseAmountShown(n: nat)
    ensures ParseAmount(ShowNat(n)) == Some(n)
  {
    ParseAmountPlain(ShowNat(n));
    ParseShowNat(n);
  }

  /** `0012` reads as 12. */
  lemma ParseAmountLeadingZeroExample()
    ensures ParseAmount("0012") == Some(12)
  {
    assert "0012"[..3] == "001" && "001"[..2] == "00" && "00"[..1] == "0" && "0"[..0] == "";
    assert Value("0") == 0;
    assert Value("00") == 0;
    assert Value("001") == 1;
    assert Value("0012") == 12;
    assert AllDigits("0012");
    ParseAmountPlain("0012");
  }

  /** `.00` cannot occur in a digit string. */
  lemma {:induction false} RemoveNoDot(d: string)
    requires AllDigits(d)
    ensures RemoveAll(d, ".00") == d
    decreases |d|
  {
    if |d| >= 3 {
      assert d[..3][0] == d[0];
      RemoveNoDot(d[1..]);
      assert d == [d[0]] + d[1..];
    }
  }

  /** 1234 in the currency format is `$1,234.00`, whose digits are `1234`. */
  lemma CurrencyTextExample()
    ensures CurrencyText(1234) == "$1,234.00"
    ensures RemoveAll(Grouped(1234), ",") == "1234"
  {
    var n := 1234;
    assert "$" + "1,234" + ".00" == "$1,234.00";
    assert "1" + "," + "234" == "1,234";
    assert "1" + "234" == "1234";
    assert n / 1000 == 1 && n % 1000 == 234;
    var one, lo := Grouped(1), Pad3(234);
    assert one == "1";
    assert lo == "234";
    var g := Grouped(n);
    assert g == one + "," + lo;
    assert g == "1,234";
    UngroupedDigits(n);
    RemoveAbsentChar(one, ',');
    assert RemoveAll(g, ",") == one + lo;
  }

  /** The amount `$1,234.00`, in the format the replacements undo, cleans
      to `1234` and reads as 1234. */
  lemma CleanAmountExample()
    ensures CleanAmount("$1,234.00") == "1234"
    ensures ParseAmount("$1,234.00") == Some(1234)
  {
    CurrencyTextExample();
    ParseAmountCurrency(1234);
  }
}

=== FILE: Dates.dfy ===
/** `fecha_de_beneficio`: a date written day first (`%d/%m/%Y`) or, failing
    that, year first (`%Y/%m/%d`); a text valid in neither is missing. */
module Dates {
  import opened Wrappers
  import opened Digits

  /** A calendar date, as the (year, month, day) of a timestamp. */
  datatype Date = Date(year: int, month: int, day: int)

  /** Gregorian leap years. */
  predicate IsLeapYear(y: int)
  {
    y % 4 == 0 && (y % 100 != 0 || y % 400 == 0)
  }

  function DaysInMonth(year: int, month: int): (n: int)
    requires 1 <= month <= 12
    ensures 28 <= n <= 31
  {
    if month == 2 then (if IsLeapYear(year) then 29 else 28)
    else if month == 4 || month == 6 || month == 9 || month == 11 then 30
    else 31
  }

  /** A date the parser can produce: a four-digit year from 1 on, and a
      day that exists in its month. */
  predicate IsValid(d: Date)
  {
    && 1 <= d.year <= 9999
    && 1 <= d.month <= 12
    && 1 <= d.day <= DaysInMonth(d.year, d.month)
  }

  /** The pieces `parts` put back together, `sep.join(parts)`. */
  function Join(parts: seq<string>, sep: char): string
    requires |parts| >= 1
  {
    if |parts| == 1 then parts[0] else parts[0] + [sep] + Join(parts[1..], sep)
  }

  /** The pieces of `s` between the separators. A format such as
      `%d/%m/%Y` matches its three fields between the two `/`, and no
      field pattern matches `/`, so the fields are exactly these pieces.
      Joining them with the separator gives `s` back, and no piece holds
      it. */
  function Split(s: string, sep: char): (parts: seq<string>)
    ensures |parts| >= 1
    ensures Join(parts, sep) == s
    ensures forall k :: 0 <= k < |parts| ==> sep !in parts[k]
    decreases |s|
  {
    if |s| == 0 then [""]
    else
      var rest := Split(s[1..], sep);
      assert s == [s[0]] + s[1..];
      if s[0] == sep then
        assert ([""] + rest)[1..] == rest;
        [""] + rest
      else
        var parts := [[s[0]] + rest[0]] + rest[1..];
        assert parts[1..] == rest[1..];
        assert |rest| > 1 ==> Join(rest, sep) == rest[0] + [sep] + Join(rest[1..], sep);
        assert forall k :: 1 <= k < |parts| ==> parts[k] == rest[k];
        parts
  }

  /** A day or month field: one or two digits. */
  function ShortField(f: string): Option<int>
  {
    if 1 <= |f| <= 2 && AllDigits(f) then Some(Value(f)) else None
  }

  /** A year field: exactly four digits. */
  function YearField(f: string): Option<int>
  {
    if |f| == 4 && AllDigits(f) then Some(Value(f)) else None
  }

  /** The date of three parsed fields, when all parsed and the date exists. */
  function MakeDate(year: Option<int>, month: Option<int>, day: Option<int>): (r: Option<Date>)
    ensures r.Some? <==> year.Some? && month.Some? && day.Some? && IsValid(Date(year.value, month.value, day.value))
    ensures r.Some? ==> r.value == Date(year.value, month.value, day.value)
  {
    if year.Some? && month.Some? && day.Some? && IsValid(Date(year.value, month.value, day.value))
    then Some(Date(year.value, month.value, day.value))
    else None
  }

  /** `pd.to_datetime(s, format="%d/%m/%Y", errors="coerce")`. */
  function ParseDayFirst(s: string): (r: Option<Date>)
    ensures r.Some? ==> IsValid(r.value)
  {
    var p := Split(s, '/');
    if |p| != 3 then None
    else MakeDate(YearField(p[2]), ShortField(p[1]), ShortField(p[0]))
  }

  /** `pd.to_datetime(s, format="%Y/%m/%d", errors="coerce")`. */
  function ParseYearFirst(s: string): (r: Option<Date>)
    ensures r.Some? ==> IsValid(r.value)
  {
    var p := Split(s, '/');
    if |p| != 3 then None
    else MakeDate(YearField(p[0]), ShortField(p[1]), ShortField(p[2]))
  }

  /** `fecha_1.combine_first(fecha_2)`: the day-first reading where there
      is one, the year-first reading otherwise. */
  function ParseFecha(s: string): (r: Option<Date>)
    ensures r.Some? ==> IsValid(r.value)
  {
    match ParseDayFirst(s)
    case Some(d) => Some(d)
    case None => ParseYearFirst(s)
  }

  /** No text is valid in both formats: the first field has one or two
      digits in one and four in the other. */
  lemma FormatsExclusive(s: string)
    ensures ParseDayFirst(s).None? || ParseYearFirst(s).None?
  {
  }

  /** Because the formats exclude each other, a text reads as a date
      exactly when one of the two formats reads it so; the day-first
      preference never overrides a year-first reading. */
  lemma ParseFechaEitherFormat(s: string, d: Date)
    ensures ParseFecha(s) == Some(d) <==> ParseDayFirst(s) == Some(d) || ParseYearFirst(s) == Some(d)
  {
    FormatsExclusive(s);
  }

  /** Splitting at a separator that `a` does not contain peels `a` off. */
  lemma {:induction false} SplitAfter(a: string, rest: string, sep: char)
    requires sep !in a
    ensures Split(a + [sep] + rest, sep) == [a] + Split(rest, sep)
    decreases |a|
  {
    if |a| > 0 {
      var s := a + [sep] + rest;
      assert s[1..] == a[1..] + [sep] + rest;
      SplitAfter(a[1..], rest, sep);
      assert a == [a[0]] + a[1..];
    } else {
      assert (a + [sep] + rest)[1..] == rest;
    }
  }

  /** A text without the separator is one piece. */
  lemma {:induction false} SplitNone(a: string, sep: char)
    requires sep !in a
    ensures Split(a, sep) == [a]
    decreases |a|
  {
    if |a| > 0 {
      SplitNone(a[1..], sep);
      assert a == [a[0]] + a[1..];
    }
  }

  lemma SplitThree(a: string, b: string, c: string, sep: char)
    requires sep !in a && sep !in b && sep !in c
    ensures Split(a + [sep] + b + [sep] + c, sep) == [a, b, c]
  {
    assert a + [sep] + b + [sep] + c == a + [sep] + (b + [sep] + c);
    SplitAfter(a, b + [sep] + c, sep);
    SplitAfter(b, c, sep);
    SplitNone(c, sep);
  }

  /** The text `dd/mm/yyyy` of a (year, month, day) triple. */
  function DayFirstText(year: nat, month: nat, day: nat): string
    requires year < 10000 && month < 100 && day < 100
  {
    Pad2(day) + "/" + Pad2(month) + "/" + Pad4(year)
  }

  /** The text `yyyy/mm/dd` of a (year, month, day) triple. */
  function YearFirstText(year: nat, month: nat, day: nat): string
    requires year < 10000 && month < 100 && day < 100
  {
    Pad4(year) + "/" + Pad2(month) + "/" + Pad2(day)
  }

  lemma NoSlashInDigits(s: string)
    requires AllDigits(s)
    ensures '/' !in s
  {
  }

  /** A `dd/mm/yyyy` text reads as its date exactly when that date exists
      in the calendar, and is missing otherwise. */
  lemma ParseDayFirstText(year: nat, month: nat, day: nat)
    requires year < 10000 && month < 100 && day < 100
    ensures ParseFecha(DayFirstText(year, month, day))
      == if IsValid(Date(year, month, day)) then Some(Date(year, month, day)) else None
  {
    var a, b, c := Pad2(day), Pad2(month), Pad4(year);
    Pad2Value(day);
    Pad2Value(month);
    Pad4Value(year);
    NoSlashInDigits(a);
    NoSlashInDigits(b);
    NoSlashInDigits(c);
    SplitThree(a, b, c, '/');
  }

  /** A `yyyy/mm/dd` text reads as its date exactly when that date exists
      in the calendar, and is missing otherwise. */
  lemma ParseYearFirstText(year: nat, month: nat, day: nat)
    requires year < 10000 && month < 100 && day < 100
    ensures ParseFecha(YearFirstText(year, month, day))
      == if IsValid(Date(year, month, day)) then Some(Date(year, month, day)) else None
  {
    var a, b, c := Pad4(year), Pad2(month), Pad2(day);
    Pad4Value(year);
    Pad2Value(month);
    Pad2Value(day);
    NoSlashInDigits(a);
    NoSlashInDigits(b);
    NoSlashInDigits(c);
    SplitThree(a, b, c, '/');
  }

  /** Three pieces joined with `/`. */
  lemma JoinThree(p: seq<string>)
    requires |p| == 3
    ensures Join(p, '/') == p[0] + "/" + p[1] + "/" + p[2]
  {
    var q := p[1..];
    assert Join(q[1..], '/') == p[2];
    assert Join(q, '/') == p[1] + "/" + p[2];
  }

  /** A digit field holds no `/`. */
  lemma FieldNoSlash(f: string)
    requires ShortField(f).Some? || YearField(f).Some?
    ensures '/' !in f
  {
    NoSlashInDigits(f);
  }

  /** `%d/%m/%Y` reads `s` as `d` exactly when `s` is a day of one or two
      digits, `/`, a month of one or two digits, `/` and a year of four
      digits, and these make the valid date `d`. Every other text is
      missing. */
  lemma ParseDayFirstShape(s: string, d: Date)
    ensures ParseDayFirst(s) == Some(d) <==>
      exists a, b, c :: s == a + "/" + b + "/" + c
        && ShortField(a) == Some(d.day) && ShortField(b) == Some(d.month)
        && YearField(c) == Some(d.year) && IsValid(d)
  {
    if ParseDayFirst(s) == Some(d) {
      var p := ThreePieces(s);
      var a, b, c := p[0], p[1], p[2];
      assert s == a + "/" + b + "/" + c
        && ShortField(a) == Some(d.day) && ShortField(b) == Some(d.month)
        && YearField(c) == Some(d.year) && IsValid(d);
    }
    if exists a, b, c :: s == a + "/" + b + "/" + c
        && ShortField(a) == Some(d.day) && ShortField(b) == Some(d.month)
        && YearField(c) == Some(d.year) && IsValid(d)
    {
      var a, b, c :| s == a + "/" + b + "/" + c
        && ShortField(a) == Some(d.day) && ShortField(b) == Some(d.month)
        && YearField(c) == Some(d.year) && IsValid(d);
      DayFirstOfFields(a, b, c, d);
    }
  }

  /** `%Y/%m/%d` reads `s` as `d` exactly when `s` is a year of four
      digits, `/`, a month of one or two digits, `/` and a day of one or
      two digits, and these make the valid date `d`. Every other text is
      missing. */
  lemma ParseYearFirstShape(s: string, d: Date)
    ensures ParseYearFirst(s) == Some(d) <==>
      exists a, b, c :: s == a + "/" + b + "/" + c
        && YearField(a) == Some(d.year) && ShortField(b) == Some(d.month)
        && ShortField(c) == Some(d.day) && IsValid(d)
  {
    if ParseYearFirst(s) == Some(d) {
      var p := ThreePieces(s);
      var a, b, c := p[0], p[1], p[2];
      assert s == a + "/" + b + "/" + c
        && YearField(a) == Some(d.year) && ShortField(b) == Some(d.month)
        && ShortField(c) == Some(d.day) && IsValid(d);
    }
    if exists a, b, c :: s == a + "/" + b + "/" + c
        && YearField(a) == Some(d.year) && ShortField(b) == Some(d.month)
        && ShortField(c) == Some(d.day) && IsValid(d)
    {
      var a, b, c :| s == a + "/" + b + "/" + c
        && YearField(a) == Some(d.year) && ShortField(b) == Some(d.month)
        && ShortField(c) == Some(d.day) && IsValid(d);
      YearFirstOfFields(a, b, c, d);
    }
  }

  /** A day, a month and a year field joined by `/` read as their date. */
  lemma DayFirstOfFields(a: string, b: string, c: string, d: Date)
    requires ShortField(a) == Some(d.day) && ShortField(b) == Some(d.month)
    requires YearField(c) == Some(d.year) && IsValid(d)
    ensures ParseDayFirst(a + "/" + b + "/" + c) == Some(d)
  {
    SplitFields(a, b, c);
    assert ParseDayFirst(a + "/" + b + "/" + c) == MakeDate(YearField(c), ShortField(b), ShortField(a));
  }

  /** A year, a month and a day field joined by `/` read as their date. */
  lemma YearFirstOfFields(a: string, b: string, c: string, d: Date)
    requires YearField(a) == Some(d.year) && ShortField(b) == Some(d.month)
    requires ShortField(c) == Some(d.day) && IsValid(d)
    ensures ParseYearFirst(a + "/" + b + "/" + c) == Some(d)
  {
    SplitFields(a, b, c);
    assert ParseYearFirst(a + "/" + b + "/" + c) == MakeDate(YearField(a), ShortField(b), ShortField(c));
  }

  /** A text that splits into three pieces is those pieces joined by `/`. */
  lemma ThreePieces(s: string) returns (p: seq<string>)
    ensures p == Split(s, '/')
    ensures |p| == 3 ==> s == p[0] + "/" + p[1] + "/" + p[2]
  {
    p := Split(s, '/');
    if |p| == 3 {
      JoinThree(p);
    }
  }

  /** Three digit fields joined by `/` split back into those fields. */
  lemma SplitFields(a: string, b: string, c: string)
    requires ShortField(a).Some? || YearField(a).Some?
    requires ShortField(b).Some?
    requires ShortField(c).Some? || YearField(c).Some?
    ensures Split(a + "/" + b + "/" + c, '/') == [a, b, c]
  {
    FieldNoSlash(a);
    FieldNoSlash(b);
    FieldNoSlash(c);
    SplitThree(a, b, c, '/');
  }

  /** `05/03/2021` is the 5th of March 2021. */
  lemma ParseFechaExample()
    ensures ParseFecha("05/03/2021") == Some(Date(2021, 3, 5))
  {
    assert "05" + "/" + "03" + "/" + "2021" == "05/03/2021";
    assert "20" + "21" == "2021";
    assert Pad2(5) == "05" && Pad2(3) == "03";
    assert Pad2(20) == "20" && Pad2(21) == "21";
    assert Pad4(2021) == "2021";
    ParseDayFirstText(2021, 3, 5);
  }

  /** `2021/03/05` is the same date, read year first. */
  lemma ParseFechaYearFirstExample()
    ensures ParseFecha("2021/03/05") == Some(Date(2021, 3, 5))
  {
    assert "2021" + "/" + "03" + "/" + "05" == "2021/03/05";
    assert "20" + "21" == "2021";
    assert Pad2(5) == "05" && Pad2(3) == "03";
    assert Pad2(20) == "20" && Pad2(21) == "21";
    assert Pad4(2021) == "2021";
    ParseYearFirstText(2021, 3, 5);
  }

  /** `%d` and `%m` also take a single digit: `5/3/2021` is the same date. */
  lemma ParseFechaSingleDigitExample()
    ensures ParseFecha("5/3/2021") == Some(Date(2021, 3, 5))
  {
    assert "5" + "/" + "3" + "/" + "2021" == "5/3/2021";
    assert ShortField("5") == Some(5) && ShortField("3") == Some(3);
    assert "2021"[..3] == "202" && "202"[..2] == "20" && "20"[..1] == "2";
    assert YearField("2021") == Some(2021);
    DayFirstOfFields("5", "3", "2021", Date(2021, 3, 5));
  }

  /** A date written with `-` fits neither format and is missing. */
  lemma ParseFechaDashExample()
    ensures ParseFecha("05-03-2021") == None
  {
    var s := "05-03-2021";
    assert '/' !in s;
    SplitNone(s, '/');
  }

  /** A space-padded day is not a digit field, so ` 5/03/2021` is missing. */
  lemma ParseFechaSpaceExample()
    ensures ParseFecha(" 5/03/2021") == None
  {
    assert " 5" + "/" + "03" + "/" + "2021" == " 5/03/2021";
    assert '/' !in " 5" && '/' !in "03" && '/' !in "2021";
    SplitThree(" 5", "03", "2021", '/');
    assert ShortField(" 5") == None && YearField(" 5") == None;
  }

  /** A space-padded final day is not a digit field either, so
      `2021/03/ 5` is missing. */
  lemma ParseFechaYearFirstSpaceExample()
    ensures ParseFecha("2021/03/ 5") == None
  {
    assert "2021" + "/" + "03" + "/" + " 5" == "2021/03/ 5";
    assert '/' !in "2021" && '/' !in "03" && '/' !in " 5";
    SplitThree("2021", "03", " 5", '/');
    assert ShortField("2021") == None && ShortField(" 5") == None;
  }

  /** The word `today` has no `/`, so it fits neither format and is
      missing; the model has no clock to read it by. */
  lemma ParseFechaTodayExample()
    ensures ParseFecha("today") == None
  {
    var s := "today";
    assert '/' !in s;
    SplitNone(s, '/');
  }

  /** `31/02/2021` is valid in neither format and is missing. */
  lemma ParseFechaInvalidExample()
    ensures ParseFecha("31/02/2021") == None
  {
    assert "31" + "/" + "02" + "/" + "2021" == "31/02/2021";
    assert "20" + "21" == "2021";
    assert Pad2(31) == "31" && Pad2(2) == "02";
    assert Pad2(20) == "20" && Pad2(21) == "21";
    assert Pad4(2021) == "2021";
    ParseDayFirstText(2021, 2, 31);
  }

  /** 2020 is a leap year: `29/02/2020` exists. */
  lemma ParseFechaLeapDayExample()
    ensures ParseFecha("29/02/2020") == Some(Date(2020, 2, 29))
  {
    assert "29" + "/" + "02" + "/" + "2020" == "29/02/2020";
    assert "20" + "20" == "2020";
    assert Pad2(29) == "29" && Pad2(2) == "02";
    assert Pad2(20) == "20";
    assert Pad4(2020) == "2020";
    ParseDayFirstText(2020, 2, 29);
  }

  /** 1900 is a century year not divisible by 400: `29/02/1900` is missing. */
  lemma ParseFechaCenturyExample()
    ensures ParseFecha("29/02/1900") == None
  {
    assert "29" + "/" + "02" + "/" + "1900" == "29/02/1900";
    assert "19" + "00" == "1900";
    assert !IsLeapYear(1900) && !IsValid(Date(1900, 2, 29));
    assert Pad2(19) == "19" && Pad2(0) == "00";
    assert Pad4(1900) == "1900" && Pad2(2) == "02" && Pad2(29) == "29";
    ParseDayFirstText(1900, 2, 29);
  }
}

=== FILE: Digits.dfy ===
/** Decimal digit strings: the whole-number case of `pd.to_numeric`, and
    the digit fields of the two date formats. */
module Digits {
  import opened Wrappers

  predicate IsDigit(c: char)
  {
    '0' <= c <= '9'
  }

  predicate AllDigits(s: string)
  {
    forall i :: 0 <= i < |s| ==> IsDigit(s[i])
  }

  function DigitValue(c: char): nat
    requires IsDigit(c)
  {
    c as int - '0' as int
  }

  function DigitChar(d: nat): (c: char)
    requires d < 10
    ensures IsDigit(c) && DigitValue(c) == d
  {
    ('0' as int + d) as char
  }

  function Pow10(n: nat): (p: nat)
    ensures p >= 1
  {
    if n == 0 then 1 else 10 * Pow10(n - 1)
  }

  /** The number a digit string denotes, most significant digit first;
      leading zeros add nothing. */
  function Value(s: string): (v: nat)
    requires AllDigits(s)
    ensures v < Pow10(|s|)
    decreases |s|
  {
    if |s| == 0 then 0 else Value(s[..|s| - 1]) * 10 + DigitValue(s[|s| - 1])
  }

  /** A non-empty string of ASCII digits reads as its number; anything
      else does not parse. */
  function ParseNat(s: string): (r: Option<nat>)
    ensures r.Some? <==> |s| > 0 && AllDigits(s)
  {
    if |s| > 0 && AllDigits(s) then Some(Value(s)) else None
  }

  /** The shortest decimal writing of `n`. */
  function ShowNat(n: nat): (s: string)
    ensures |s| > 0 && AllDigits(s)
  {
    if n < 10 then [DigitChar(n)] else ShowNat(n / 10) + [DigitChar(n % 10)]
  }

  /** The value of a concatenation: the left part is shifted by the
      length of the right part. */
  lemma {:induction false} ValueConcat(a: string, b: string)
    requires AllDigits(a) && AllDigits(b)
    ensures AllDigits(a + b)
    ensures Value(a + b) == Value(a) * Pow10(|b|) + Value(b)
    decreases |b|
  {
    var ab := a + b;
    assert AllDigits(ab);
    if |b| > 0 {
      var b' := b[..|b| - 1];
      var d := DigitValue(b[|b| - 1]);
      assert ab[..|ab| - 1] == a + b';
      assert ab[|ab| - 1] == b[|b| - 1];
      ValueConcat(a, b');
      assert Value(ab) == Value(a + b') * 10 + d;
      assert Value(b) == Value(b') * 10 + d;
      assert Pow10(|b|) == 10 * Pow10(|b'|);
      ShiftStep(Value(a), Pow10(|b'|), Value(b'), d);
    } else {
      assert ab == a;
    }
  }

  lemma ShiftStep(x: int, p: int, y: int, d: int)
    ensures (x * p + y) * 10 + d == x * (10 * p) + (y * 10 + d)
  {
  }

  /** Reading back the decimal writing of `n` gives `n`. */
  lemma {:induction false} ParseShowNat(n: nat)
    ensures ParseNat(ShowNat(n)) == Some(n)
  {
    if n >= 10 {
      ParseShowNat(n / 10);
      var s := ShowNat(n);
      assert s[..|s| - 1] == ShowNat(n / 10);
    }
  }

  /** Two digits, with a leading zero. */
  function Pad2(n: nat): (s: string)
    requires n < 100
    ensures |s| == 2 && AllDigits(s)
  {
    [DigitChar(n / 10), DigitChar(n % 10)]
  }

  /** The two digits read back as `n`. */
  lemma Pad2Value(n: nat)
    requires n < 100
    ensures Value(Pad2(n)) == n
  {
    var s := Pad2(n);
    assert s[..1] == [s[0]] && [s[0]][..0] == [];
  }

  /** Four digits, with leading zeros. */
  function Pad4(n: nat): (s: string)
    requires n < 10000
    ensures |s| == 4 && AllDigits(s)
  {
    Pad2(n / 100) + Pad2(n % 100)
  }

  /** The four digits read back as `n`. */
  lemma Pad4Value(n: nat)
    requires n < 10000
    ensures Value(Pad4(n)) == n
  {
    Pad2Value(n / 100);
    Pad2Value(n % 100);
    ValueConcat(Pad2(n / 100), Pad2(n % 100));
  }

  /** Three digits, with leading zeros. */
  function Pad3(m: nat): (s: string)
    requires m < 1000
    ensures |s| == 3 && AllDigits(s)
  {
    [DigitChar(m / 100), DigitChar(m / 10 % 10), DigitChar(m % 10)]
  }

  /** The three digits read back as `m`. */
  lemma Pad3Value(m: nat)
    requires m < 1000
    ensures Value(Pad3(m)) == m
  {
    var s := Pad3(m);
    assert s[..2][..1] == [s[0]] && [s[0]][..0] == [];
    assert Value([s[0]]) == m / 100;
    assert Value(s[..2]) == m / 100 * 10 + m / 10 % 10;
    assert Value(s) == (m / 100 * 10 + m / 10 % 10) * 10 + m % 10;
    ThreeDigits(m);
  }

  lemma ThreeDigits(m: nat)
    requires m < 1000
    ensures (m / 100 * 10 + m / 10 % 10) * 10 + m % 10 == m
  {
    var q := m / 10;
    assert m == q * 10 + m % 10;
    assert q / 10 == m / 100;
    assert q == q / 10 * 10 + q % 10;
  }
}

=== FILE: Rows.dfy ===
/** Row filters of a table held as a sequence of rows: boolean-mask
    selection, and the two filters built on it, `dropna` and
    `drop_duplicates` (keep the first occurrence). */
module Rows {

  /** No two positions of `s` hold equal rows. */
  ghost predicate Distinct<T>(s: seq<T>)
  {
    forall k, l :: 0 <= k < l < |s| ==> s[k] != s[l]
  }

  /** The positions at which `mask` is true, in increasing order. */
  function Positions(mask: seq<bool>): (idx: seq<nat>)
    ensures |idx| <= |mask|
    ensures forall k :: 0 <= k < |idx| ==> idx[k] < |mask| && mask[idx[k]]
    ensures forall i :: 0 <= i < |mask| && mask[i] ==> i in idx
    ensures forall k, l :: 0 <= k < l < |idx| ==> idx[k] < idx[l]
    decreases |mask|
  {
    if |mask| == 0 then []
    else Positions(mask[..|mask| - 1]) + (if mask[|mask| - 1] then [|mask| - 1] else [])
  }

  /** Boolean-mask selection `df[mask]`: the rows of `s` at the positions
      where `mask` holds, unchanged and in their original order. */
  function Select<T>(s: seq<T>, mask: seq<bool>): (r: seq<T>)
    requires |mask| == |s|
    ensures |r| == |Positions(mask)| <= |s|
    ensures forall k :: 0 <= k < |r| ==> r[k] == s[Positions(mask)[k]]
    decreases |s|
  {
    if |s| == 0 then []
    else Select(s[..|s| - 1], mask[..|s| - 1]) + (if mask[|s| - 1] then [s[|s| - 1]] else [])
  }

  /** The mask `dropna` keeps: the rows with no missing field. */
  function CompleteMask<T>(complete: T -> bool, s: seq<T>): (mask: seq<bool>)
    ensures |mask| == |s|
  {
    seq(|s|, i requires 0 <= i < |s| => complete(s[i]))
  }

  /** `df.dropna()`: the rows for which `complete` holds. */
  function DropNA<T>(complete: T -> bool, s: seq<T>): (r: seq<T>)
    ensures |r| <= |s|
    ensures forall k :: 0 <= k < |r| ==> r[k] in s && complete(r[k])
    ensures forall i :: 0 <= i < |s| && complete(s[i]) ==> s[i] in r
  {
    DropNAKeepsExactly(complete, s);
    Select(s, CompleteMask(complete, s))
  }

  /** `dropna` keeps exactly the rows with no missing field, unchanged
      and in their original order: the result reads the input at an
      increasing list of positions, and a position is on that list
      exactly when its row is complete. */
  lemma DropNAKeepsExactly<T>(complete: T -> bool, s: seq<T>)
    ensures var r := Select(s, CompleteMask(complete, s));
      var idx := Positions(CompleteMask(complete, s));
      && |r| == |idx|
      && (forall k :: 0 <= k < |r| ==> r[k] == s[idx[k]])
      && (forall k, l :: 0 <= k < l < |idx| ==> idx[k] < idx[l])
      && (forall i :: 0 <= i < |s| ==> (i in idx <==> complete(s[i])))
  {
  }

  /** The mask `drop_duplicates` keeps, `~df.duplicated(keep="first")`:
      a row is kept when no equal row comes before it. */
  function FirstOccurrenceMask<T(==)>(s: seq<T>): (mask: seq<bool>)
    ensures |mask| == |s|
  {
    seq(|s|, i requires 0 <= i < |s| => s[i] !in s[..i])
  }

  /** `df.drop_duplicates()`: the first occurrence of every distinct row.
      No two rows of the result are equal, and every input row is in it. */
  function DropDuplicates<T(==)>(s: seq<T>): (r: seq<T>)
    ensures |r| <= |s|
    ensures Distinct(r)
    ensures forall k :: 0 <= k < |r| ==> r[k] in s
    ensures forall i :: 0 <= i < |s| ==> s[i] in r
  {
    FirstOccurrencesDistinct(s);
    FirstOccurrencesCover(s);
    Select(s, FirstOccurrenceMask(s))
  }

  /** The first occurrences are pairwise different. */
  lemma FirstOccurrencesDistinct<T>(s: seq<T>)
    ensures Distinct(Select(s, FirstOccurrenceMask(s)))
  {
    var mask := FirstOccurrenceMask(s);
    var r := Select(s, mask);
    var idx := Positions(mask);
    forall k, l | 0 <= k < l < |r|
      ensures r[k] != r[l]
    {
      assert idx[k] < idx[l] && mask[idx[l]];
      assert s[..idx[l]][idx[k]] == s[idx[k]];
    }
  }

  /** Every row has its first occurrence among the rows kept. */
  lemma FirstOccurrencesCover<T>(s: seq<T>)
    ensures forall i :: 0 <= i < |s| ==> s[i] in Select(s, FirstOccurrenceMask(s))
  {
    var mask := FirstOccurrenceMask(s);
    var r := Select(s, mask);
    var idx := Positions(mask);
    forall j | 0 <= j < |s|
      ensures s[j] in r
    {
      var i := FirstIndex(s, s[j]);
      assert mask[i];
      assert i in idx;
      var k :| 0 <= k < |idx| && idx[k] == i;
      assert r[k] == s[j];
    }
  }

  /** `drop_duplicates` keeps the first occurrence of each row and
      nothing else, in the original order: the result reads the input at
      an increasing list of positions, and a position is on that list
      exactly when no equal row comes before it. */
  lemma DropDuplicatesKeepsFirst<T>(s: seq<T>)
    ensures var r := DropDuplicates(s);
      var idx := Positions(FirstOccurrenceMask(s));
      && |r| == |idx|
      && (forall k :: 0 <= k < |r| ==> r[k] == s[idx[k]])
      && (forall k, l :: 0 <= k < l < |idx| ==> idx[k] < idx[l])
      && (forall i :: 0 <= i < |s| ==> (i in idx <==> s[i] !in s[..i]))
  {
  }

  /** Where a complete row of the input is found in the result of `dropna`. */
  lemma DropNAPositionOf<T>(complete: T -> bool, s: seq<T>, i: nat) returns (k: nat)
    requires i < |s| && complete(s[i])
    ensures k < |DropNA(complete, s)| && DropNA(complete, s)[k] == s[i]
  {
    DropNAKeepsExactly(complete, s);
    var idx := Positions(CompleteMask(complete, s));
    assert i in idx;
    k :| k < |idx| && idx[k] == i;
  }

  /** Where a row of the input is found in the result of `drop_duplicates`:
      at the place of its first occurrence. */
  lemma DropDuplicatesPositionOf<T>(s: seq<T>, i: nat) returns (k: nat)
    requires i < |s|
    ensures k < |DropDuplicates(s)| && DropDuplicates(s)[k] == s[i]
  {
    DropDuplicatesKeepsFirst(s);
    var f := FirstIndex(s, s[i]);
    var idx := Positions(FirstOccurrenceMask(s));
    assert f in idx;
    k :| k < |idx| && idx[k] == f;
  }

  /** Where a row of the result of `dropna` comes from in the input. */
  lemma DropNASourceOf<T>(complete: T -> bool, s: seq<T>, k: nat) returns (i: nat)
    requires k < |DropNA(complete, s)|
    ensures i < |s| && s[i] == DropNA(complete, s)[k] && complete(s[i])
  {
    DropNAKeepsExactly(complete, s);
    i := Positions(CompleteMask(complete, s))[k];
  }

  /** Where a row of the result of `drop_duplicates` comes from in the
      input: a position holding its first occurrence. */
  lemma DropDuplicatesSourceOf<T>(s: seq<T>, k: nat) returns (i: nat)
    requires k < |DropDuplicates(s)|
    ensures i < |s| && s[i] == DropDuplicates(s)[k] && s[i] !in s[..i]
  {
    DropDuplicatesKeepsFirst(s);
    i := Positions(FirstOccurrenceMask(s))[k];
  }

  /** The position of the first occurrence of `x` in `s`. */
  function FirstIndex<T(==)>(s: seq<T>, x: T): (i: nat)
    requires x in s
    ensures i < |s| && s[i] == x && x !in s[..i]
  {
    if s[0] == x then 0
    else
      assert s == [s[0]] + s[1..];
      var j := FirstIndex(s[1..], x);
      assert s[..j + 1] == [s[0]] + s[1..][..j];
      j + 1
  }

  /** Selecting rows of a duplicate-free table leaves it duplicate-free. */
  lemma SelectPreservesDistinct<T>(s: seq<T>, mask: seq<bool>)
    requires |mask| == |s|
    requires Distinct(s)
    ensures Distinct(Select(s, mask))
  {
  }

  /** `dropna` of a duplicate-free table is duplicate-free. */
  lemma DropNAPreservesDistinct<T>(complete: T -> bool, s: seq<T>)
    requires Distinct(s)
    ensures Distinct(DropNA(complete, s))
  {
    SelectPreservesDistinct(s, CompleteMask(complete, s));
  }

  /** An all-true mask keeps the whole table. */
  lemma {:induction false} SelectAll<T>(s: seq<T>, mask: seq<bool>)
    requires |mask| == |s|
    requires forall i :: 0 <= i < |mask| ==> mask[i]
    ensures Select(s, mask) == s
    decreases |s|
  {
    if |s| > 0 {
      var n := |s| - 1;
      assert s[..n] + [s[n]] == s;
      SelectAll(s[..n], mask[..n]);
    }
  }

  /** A duplicate-free table is its own `drop_duplicates`. */
  lemma DropDuplicatesOfDistinct<T>(s: seq<T>)
    requires Distinct(s)
    ensures DropDuplicates(s) == s
  {
    SelectAll(s, FirstOccurrenceMask(s));
  }

  /** `drop_duplicates` is idempotent. */
  lemma DropDuplicatesIdempotent<T>(s: seq<T>)
    ensures DropDuplicates(DropDuplicates(s)) == DropDuplicates(s)
  {
    DropDuplicatesOfDistinct(DropDuplicates(s));
  }
}

=== FILE: Solicitudes.dfy ===
/** The table of credit applications and the cleaning routine
    `pregunta_01` between reading and writing the file: dropna,
    drop_duplicates, the column transformations, drop_duplicates, dropna. */
module Solicitudes {
  import opened Wrappers
  import Rows
  import Text
  import Amount
  import Dates

  /** A row as read from the input file (the index column left aside, as
      `drop_duplicates` and `to_csv(index=False)` leave it aside). */
  datatype RawSolicitud = RawSolicitud(
    sexo: Option<string>,
    tipoDeEmprendimiento: Option<string>,
    ideaNegocio: Option<string>,
    barrio: Option<string>,
    estrato: Option<int>,
    comunaCiudadano: Option<int>,
    fechaDeBeneficio: Option<string>,
    montoDelCredito: Option<string>,
    lineaCredito: Option<string>)
  {
    /** No field is missing: the rows `dropna` keeps. */
    predicate Complete()
    {
      && sexo.Some? && tipoDeEmprendimiento.Some? && ideaNegocio.Some?
      && barrio.Some? && estrato.Some? && comunaCiudadano.Some?
      && fechaDeBeneficio.Some? && montoDelCredito.Some? && lineaCredito.Some?
    }
  }

  /** A row after the column transformations: the date is parsed and the
      amount is a whole number, either possibly missing. */
  datatype Solicitud = Solicitud(
    sexo: Option<string>,
    tipoDeEmprendimiento: Option<string>,
    ideaNegocio: Option<string>,
    barrio: Option<string>,
    estrato: Option<int>,
    comunaCiudadano: Option<int>,
    fechaDeBeneficio: Option<Dates.Date>,
    montoDelCredito: Option<nat>,
    lineaCredito: Option<string>)
  {
    /** No field is missing: the rows the final `dropna` keeps. */
    predicate Complete()
    {
      && sexo.Some? && tipoDeEmprendimiento.Some? && ideaNegocio.Some?
      && barrio.Some? && estrato.Some? && comunaCiudadano.Some?
      && fechaDeBeneficio.Some? && montoDelCredito.Some? && lineaCredito.Some?
    }
  }

  /** What the routine promises of every row it writes. */
  ghost predicate WellFormed(a: Solicitud)
  {
    && a.Complete()
    && Text.IsCleanText(a.sexo.value)
    && Text.IsCleanText(a.tipoDeEmprendimiento.value)
    && Text.IsCleanText(a.ideaNegocio.value)
    && Text.IsCleanText(a.lineaCredito.value)
    && Text.NoUpper(a.barrio.value) && Text.NoSeparator(a.barrio.value)
    && Dates.IsValid(a.fechaDeBeneficio.value)
  }

  /** The column transformations applied to one row: the date parse, the
      text cleaning of four columns, the barrio normalisation and the
      amount cleaning. `estrato` and `comuna_ciudadano` pass unchanged. */
  function CleanRow(r: RawSolicitud): (a: Solicitud)
    ensures a.sexo.Some? == r.sexo.Some? && a.tipoDeEmprendimiento.Some? == r.tipoDeEmprendimiento.Some?
    ensures a.ideaNegocio.Some? == r.ideaNegocio.Some? && a.lineaCredito.Some? == r.lineaCredito.Some?
    ensures a.barrio.Some? == r.barrio.Some?
    ensures a.sexo.Some? ==> Text.IsCleanText(a.sexo.value)
    ensures a.tipoDeEmprendimiento.Some? ==> Text.IsCleanText(a.tipoDeEmprendimiento.value)
    ensures a.ideaNegocio.Some? ==> Text.IsCleanText(a.ideaNegocio.value)
    ensures a.lineaCredito.Some? ==> Text.IsCleanText(a.lineaCredito.value)
    ensures a.barrio.Some? ==>
      |a.barrio.value| == |r.barrio.value| && Text.NoUpper(a.barrio.value) && Text.NoSeparator(a.barrio.value)
    ensures a.estrato == r.estrato && a.comunaCiudadano == r.comunaCiudadano
    ensures a.fechaDeBeneficio.Some? ==> r.fechaDeBeneficio.Some? && Dates.IsValid(a.fechaDeBeneficio.value)
    ensures a.montoDelCredito.Some? ==> r.montoDelCredito.Some?
    ensures a.Complete() ==> WellFormed(a)
  {
    Solicitud(
      sexo := r.sexo.Map(Text.CleanText),
      tipoDeEmprendimiento := r.tipoDeEmprendimiento.Map(Text.CleanText),
      ideaNegocio := r.ideaNegocio.Map(Text.CleanText),
      barrio := r.barrio.Map(Text.LowerAndSpace),
      estrato := r.estrato,
      comunaCiudadano := r.comunaCiudadano,
      fechaDeBeneficio := r.fechaDeBeneficio.Then(Dates.ParseFecha),
      montoDelCredito := r.montoDelCredito.Then(Amount.ParseAmount),
      lineaCredito := r.lineaCredito.Map(Text.CleanText))
  }

  /** The row tests handed to `Rows.DropNA`, named once so that the
      routine and the lemmas about it use the same function value. */
  function IsCompleteRaw(r: RawSolicitud): bool
  {
    r.Complete()
  }

  function IsComplete(a: Solicitud): bool
  {
    a.Complete()
  }

  /** The column transformations applied to every row of the table. */
  function CleanRows(t: seq<RawSolicitud>): (c: seq<Solicitud>)
    ensures |c| == |t|
    ensures forall i :: 0 <= i < |t| ==> c[i] == CleanRow(t[i])
    ensures WellFormedWhenComplete(c)
  {
    seq(|t|, i requires 0 <= i < |t| => CleanRow(t[i]))
  }

  /** Every complete row of `s` is well formed. */
  ghost predicate WellFormedWhenComplete(s: seq<Solicitud>)
  {
    forall k :: 0 <= k < |s| ==> s[k].Complete() ==> WellFormed(s[k])
  }

  lemma DropDuplicatesKeepsWellFormed(c: seq<Solicitud>)
    requires WellFormedWhenComplete(c)
    ensures WellFormedWhenComplete(Rows.DropDuplicates(c))
  {
    var d := Rows.DropDuplicates(c);
    forall k | 0 <= k < |d|
      ensures d[k].Complete() ==> WellFormed(d[k])
    {
      var j :| 0 <= j < |c| && c[j] == d[k];
    }
  }

  lemma DropNAMakesWellFormed(c: seq<Solicitud>)
    requires WellFormedWhenComplete(c)
    ensures forall k :: 0 <= k < |Rows.DropNA(IsComplete, c)| ==> WellFormed(Rows.DropNA(IsComplete, c)[k])
  {
    var d := Rows.DropNA(IsComplete, c);
    forall k | 0 <= k < |d|
      ensures WellFormed(d[k])
    {
      var j :| 0 <= j < |c| && c[j] == d[k];
    }
  }

  /** `pregunta_01` without the file I/O. Every row written has all its
      fields, clean text, a valid date and a whole amount, and no row is
      written twice. */
  function Pregunta01(t: seq<RawSolicitud>): (out: seq<Solicitud>)
    ensures |out| <= |t|
    ensures forall k :: 0 <= k < |out| ==> WellFormed(out[k])
    ensures Rows.Distinct(out)
  {
    var read := Rows.DropNA(IsCompleteRaw, t);
    var unique := Rows.DropDuplicates(read);
    var cleaned := CleanRows(unique);
    var uniqueCleaned := Rows.DropDuplicates(cleaned);
    var out := Rows.DropNA(IsComplete, uniqueCleaned);
    DropDuplicatesKeepsWellFormed(cleaned);
    DropNAMakesWellFormed(uniqueCleaned);
    Rows.DropNAPreservesDistinct(IsComplete, uniqueCleaned);
    out
  }

  /** Every row written is the cleaning of a complete input row. */
  lemma Pregunta01Sound(t: seq<RawSolicitud>, k: nat)
    requires k < |Pregunta01(t)|
    ensures exists r :: r in t && r.Complete() && CleanRow(r) == Pregunta01(t)[k]
  {
    var read := Rows.DropNA(IsCompleteRaw, t);
    var unique := Rows.DropDuplicates(read);
    var cleaned := CleanRows(unique);
    var uniqueCleaned := Rows.DropDuplicates(cleaned);
    var out := Rows.DropNA(IsComplete, uniqueCleaned);
    assert out == Pregunta01(t);
    var k3 := Rows.DropNASourceOf(IsComplete, uniqueCleaned, k);
    var k2 := Rows.DropDuplicatesSourceOf(cleaned, k3);
    assert cleaned[k2] == CleanRow(unique[k2]);
    var k1 := Rows.DropDuplicatesSourceOf(read, k2);
    var i := Rows.DropNASourceOf(IsCompleteRaw, t, k1);
    assert t[i] in t && t[i].Complete() && CleanRow(t[i]) == out[k];
  }

  /** Every complete input row whose cleaning is complete (its date and
      amount parse) is written. */
  lemma Pregunta01Keeps(t: seq<RawSolicitud>, i: nat)
    requires i < |t| && t[i].Complete() && CleanRow(t[i]).Complete()
    ensures CleanRow(t[i]) in Pregunta01(t)
  {
    var read := Rows.DropNA(IsCompleteRaw, t);
    var unique := Rows.DropDuplicates(read);
    var cleaned := CleanRows(unique);
    var uniqueCleaned := Rows.DropDuplicates(cleaned);
    var out := Rows.DropNA(IsComplete, uniqueCleaned);
    assert out == Pregunta01(t);
    var k1 := Rows.DropNAPositionOf(IsCompleteRaw, t, i);
    var k2 := Rows.DropDuplicatesPositionOf(read, k1);
    assert cleaned[k2] == CleanRow(t[i]);
    var k3 := Rows.DropDuplicatesPositionOf(cleaned, k2);
    var k4 := Rows.DropNAPositionOf(IsComplete, uniqueCleaned, k3);
    assert out[k4] == CleanRow(t[i]);
  }

  /** The rows written are exactly the complete cleanings of complete
      input rows. */
  lemma Pregunta01Rows(t: seq<RawSolicitud>, a: Solicitud)
    ensures a in Pregunta01(t) <==> a.Complete() && exists r :: r in t && r.Complete() && CleanRow(r) == a
  {
    if a in Pregunta01(t) {
      var k :| 0 <= k < |Pregunta01(t)| && Pregunta01(t)[k] == a;
      Pregunta01Sound(t, k);
    }
    if a.Complete() && exists r :: r in t && r.Complete() && CleanRow(r) == a {
      var r :| r in t && r.Complete() && CleanRow(r) == a;
      var i :| 0 <= i < |t| && t[i] == r;
      Pregunta01Keeps(t, i);
    }
  }
}

=== FILE: Text.dfy ===
/** The text normalisation of the cleaning routine: lowercasing, turning
    the separators `-` and `_` into spaces, and `str.strip()`. */
module Text {

  /** The characters Python's `str.isspace()` accepts, which `str.strip()`
      with no argument removes. */
  predicate IsSpace(c: char)
  {
    || ('\t' <= c <= '\r')
    || ('\U{1C}' <= c <= '\U{1F}')
    || c == ' '
    || c == '\U{85}'
    || c == '\U{A0}'
    || c == '\U{1680}'
    || ('\U{2000}' <= c <= '\U{200A}')
    || c == '\U{2028}'
    || c == '\U{2029}'
    || c == '\U{202F}'
    || c == '\U{205F}'
    || c == '\U{3000}'
  }

  /** An ASCII capital letter. */
  predicate IsUpper(c: char)
  {
    'A' <= c <= 'Z'
  }

  /** A character the routine turns into a space. */
  predicate IsSeparator(c: char)
  {
    c == '-' || c == '_'
  }

  /** `str.lower()` on one character, restricted to ASCII letters. */
  function LowerChar(c: char): char
  {
    if IsUpper(c) then (c as int + 32) as char else c
  }

  /** Lowercase, then every separator becomes a space. */
  function NormalizeChar(c: char): char
  {
    if IsSeparator(c) then ' ' else LowerChar(c)
  }

  ghost predicate NoUpper(s: string)
  {
    forall i :: 0 <= i < |s| ==> !IsUpper(s[i])
  }

  ghost predicate NoSeparator(s: string)
  {
    forall i :: 0 <= i < |s| ==> !IsSeparator(s[i])
  }

  ghost predicate AllSpace(s: string)
  {
    forall i :: 0 <= i < |s| ==> IsSpace(s[i])
  }

  /** Neither the first nor the last character is whitespace. */
  ghost predicate NoSurroundingSpace(s: string)
  {
    |s| == 0 || (!IsSpace(s[0]) && !IsSpace(s[|s| - 1]))
  }

  /** What `limpiar_texto_columna` promises of its output. */
  ghost predicate IsCleanText(s: string)
  {
    NoUpper(s) && NoSeparator(s) && NoSurroundingSpace(s)
  }

  /** `.str.lower()` followed by replacing `-` and `_` with a space: the
      normalisation of `barrio`, and the first two steps of
      `limpiar_texto_columna`. It works character by character: capitals
      are lowered, separators become spaces, everything else (whitespace
      included) is kept where it was. */
  function LowerAndSpace(s: string): (r: string)
    ensures |r| == |s|
    ensures forall i :: 0 <= i < |s| ==>
      && (IsSeparator(s[i]) ==> r[i] == ' ')
      && (IsUpper(s[i]) ==> r[i] as int == s[i] as int + 32)
      && (!IsSeparator(s[i]) && !IsUpper(s[i]) ==> r[i] == s[i])
    ensures forall i :: 0 <= i < |s| ==> (IsSpace(r[i]) <==> IsSpace(s[i]) || IsSeparator(s[i]))
    ensures NoUpper(r) && NoSeparator(r)
  {
    seq(|s|, i requires 0 <= i < |s| => NormalizeChar(s[i]))
  }

  /** The number of whitespace characters `s` starts with. */
  function LeadingSpaces(s: string): (n: nat)
    ensures n <= |s|
    ensures forall i :: 0 <= i < n ==> IsSpace(s[i])
    ensures n < |s| ==> !IsSpace(s[n])
  {
    if |s| > 0 && IsSpace(s[0]) then LeadingSpaces(s[1..]) + 1 else 0
  }

  /** The number of whitespace characters `s` ends with. */
  function TrailingSpaces(s: string): (n: nat)
    ensures n <= |s|
    ensures forall i :: |s| - n <= i < |s| ==> IsSpace(s[i])
    ensures n < |s| ==> !IsSpace(s[|s| - 1 - n])
  {
    if |s| > 0 && IsSpace(s[|s| - 1]) then TrailingSpaces(s[..|s| - 1]) + 1 else 0
  }

  /** `str.strip()`: the slice of `s` that is left once the whitespace at
      both ends is removed. Only whitespace is removed, and none is left
      at either end. */
  function Strip(s: string): (r: string)
    ensures var a := LeadingSpaces(s);
      && a + |r| <= |s|
      && r == s[a..a + |r|]
      && AllSpace(s[..a])
      && AllSpace(s[a + |r|..])
    ensures NoSurroundingSpace(r)
    ensures |r| == 0 <==> AllSpace(s)
  {
    var a := LeadingSpaces(s);
    var b := TrailingSpaces(s);
    if a == |s| then
      assert s[..a] == s;
      []
    else
      assert |s| - b > a;
      s[a..|s| - b]
  }

  /** `limpiar_texto_columna` on one value: lowercase, separators to
      spaces, then strip. */
  function CleanText(s: string): (r: string)
    ensures IsCleanText(r)
  {
    var t := LowerAndSpace(s);
    StripKeepsNormal(t);
    Strip(t)
  }

  /** Stripping a text with no capitals and no separators leaves none. */
  lemma StripKeepsNormal(t: string)
    requires NoUpper(t) && NoSeparator(t)
    ensures NoUpper(Strip(t)) && NoSeparator(Strip(t))
  {
    var r := Strip(t);
    var a := LeadingSpaces(t);
    forall i | 0 <= i < |r|
      ensures !IsUpper(r[i]) && !IsSeparator(r[i])
    {
      assert r[i] == t[a + i];
    }
  }

  /** A string with no surrounding whitespace is its own strip. */
  lemma StripOfStripped(s: string)
    requires NoSurroundingSpace(s)
    ensures Strip(s) == s
  {
  }

  /** The strings `limpiar_texto_columna` leaves unchanged are exactly
      the clean ones. */
  lemma CleanTextFixedPoints(s: string)
    ensures CleanText(s) == s <==> IsCleanText(s)
  {
    if IsCleanText(s) {
      assert LowerAndSpace(s) == s;
      StripOfStripped(s);
    }
  }

  /** Cleaning an already cleaned value changes nothing. */
  lemma CleanTextIdempotent(s: string)
    ensures CleanText(CleanText(s)) == CleanText(s)
  {
    CleanTextFixedPoints(CleanText(s));
  }

  /** Barrio normalisation does not trim: the whitespace `s` starts or
      ends with is still there, at the same place. */
  lemma LowerAndSpaceKeepsSurroundingSpace(s: string)
    ensures LeadingSpaces(LowerAndSpace(s)) >= LeadingSpaces(s)
    ensures TrailingSpaces(LowerAndSpace(s)) >= TrailingSpaces(s)
  {
    var t := LowerAndSpace(s);
    LeadingSpacesAtLeast(t, LeadingSpaces(s));
    TrailingSpacesAtLeast(t, TrailingSpaces(s));
  }

  /** A text whose first `n` characters are whitespace starts with at
      least `n` whitespace characters. */
  lemma LeadingSpacesAtLeast(t: string, n: nat)
    requires n <= |t|
    requires forall i :: 0 <= i < n ==> IsSpace(t[i])
    ensures LeadingSpaces(t) >= n
  {
  }

  /** A text whose last `n` characters are whitespace ends with at least
      `n` whitespace characters. */
  lemma TrailingSpacesAtLeast(t: string, n: nat)
    requires n <= |t|
    requires forall i :: |t| - n <= i < |t| ==> IsSpace(t[i])
    ensures TrailingSpaces(t) >= n
  {
  }
}

=== FILE: Wrappers.dfy ===
/** The missing-value wrapper used for every cell of the table. */
module Wrappers {

  /** A cell that is either present or missing (NaN / NaT in the table). */
  datatype Option<+T> = None | Some(value: T) {

    /** Applies `f` to a present value; a missing value stays missing,
        as a pandas column operation leaves NaN in place. */
    function Map<U>(f: T -> U): Option<U>
    {
      match this
      case None => None
      case Some(v) => Some(f(v))
    }

    /** Applies a conversion that may itself fail; a failure or a missing
        value both give a missing result (`errors="coerce"`). */
    function Then<U>(f: T -> Option<U>): Option<U>
    {
      match this
      case None => None
      case Some(v) => f(v)
    }
  }
}
